=== FILE: README.md ===
# Course and student data to RDF — a Dafny model

The conversion script `converstion.py` loads an ontology into an rdflib graph, maps two course tables and one student table to RDF triples, and writes the result as Turtle. This project models the mapping, which is the script's only logic:

- **`process_course_data`** inner-joins the course-instance rows with the planning rows on `Instance_id == Course`. For every joined row it adds:
  - a `CourseInstance` node with its id, study period, study year, planned students and hours;
  - a `cInstanceOf` link to a `Course` node named by the course code;
  - an `examinedBy` link to a `SeniorTeacher` node named by the examiner.
- **`process_student_data`** adds a `Person` node for each student id; rows with the same id share the node. It types the node `TeachingAssistant` when the name begins with `TA ` and `Student` otherwise. It enrols the person in a `Program` node named by the programme code, and records the start year and the graduated flag.

The graph is a class holding a `set<Triple>`. The two processing functions are methods whose loops add triples one at a time, in the order the script adds them. Each method is proved against a function of its input rows (`CourseDelta` and `StudentDelta`), and the properties of the mapping are proved about those functions.

Nodes are named by the ontology namespace, a kind prefix (`courseInstance_`, `course_`, `teacher_`, `person_`, `program_`) and a key from the row. Rows that share a key therefore share a node, and the graph, being a set, holds it once. The model keeps IRIs as structured values (`Ontology.Resource`). `Ontology.FullIriInjective` shows that spelling them out as strings identifies no two of them, so equality of the structured values is equality of the IRIs.

One behaviour of the code is easy to miss, and the model follows the code. `int(row['Academic year'].split("-")[0])` raises `ValueError` when the text before the first `-` is not an integer. By then the first three triples of that row are already in the graph, and the loop ends. `ProcessCourseData` returns the index of that row, and its graph is the input graph plus the triples of every earlier row plus those three. Row order is therefore guaranteed irrelevant only when every year parses (`CourseProperties.CourseDeltaSameRows`), and otherwise it can matter (`CourseProperties.OrderMattersWhenAYearIsMalformed`).

Files:
- `wrappers.dfy`: `Option`.
- `pytext.dfy`: the Python string operations the script uses — `str.split(...)[0]`, `str.startswith`, and `int()` on text.
- `ontology.dfy`: the ontology's classes, properties and node names, and their IRIs.
- `rdf.dfy`: terms, triples, the graph and the accumulation of per-row triples.
- `conversion.dfy`: the rows, the join, the per-row triples and the two processing methods.
- `course_properties.dfy` and `student_properties.dfy`: what the two mappings guarantee.

## Model

| member | source | states |
|---|---|---|
| PyText.SplitHeadSpec | converstion.py:27 | `SplitHead`, the model of `split("-")[0]`, is the longest prefix without a `-`: a prefix of the text, free of `-`, and followed by `-` unless it is the whole text |
| PyText.StartsWith | converstion.py:62 | `startswith` implies that the text is the prefix followed by the rest |
| PyText.StartsWithConcat | converstion.py:62 | conversely, a prefix followed by any rest passes `startswith` |
| PyText.StripStartSpec | converstion.py:27 | the leading white space `int()` skips (ASCII white space, and the non-ASCII characters `str.isspace()` accepts) is exactly the run of such characters at the start |
| PyText.StripEndSpec | converstion.py:27 | the trailing white space `int()` skips is exactly the run of such characters at the end |
| PyText.ParseDigitsSpec | converstion.py:27 | the digit part of `int()` accepts a text exactly when it starts with a digit and every `_` in it stands before a digit, leading zeros included, and its value is the base-10 value of its digits |
| PyText.ParseIntSpec | converstion.py:27 | `int()` succeeds exactly when, after the surrounding white space and one optional sign, a well-formed digit text remains, and gives its value, negated after `-` |
| PyText.ParseIntSpellings | converstion.py:27 | `int("1_2_3")` is 123 and `int("02022")` is 2022, while `"1__2"`, `"_1"` and `"1_"` raise |
| PyText.ParseIntDecimalText | converstion.py:27 | `ParseInt`, the model of `int()`, reads back the decimal text of every natural number, within the digit limit named under Left out |
| PyText.ParseIntNeedsDigit | converstion.py:27 | `int()` rejects every text without a digit |
| PyText.ParseIntSigned | converstion.py:27 | `int()` applies one leading sign: `-` followed by the digits of n gives -n, `+` gives n |
| PyText.ParseIntWhiteSpace | converstion.py:27 | `int()` skips a space and a line feed around the digits but rejects a leading U+001C separator |
| PyText.DecimalText | converstion.py:27 | decimal text is non-empty, all digits, and has no leading zero |
| Ontology.ParseLocalNameInverse | converstion.py:8 | every local name (class, property, or kind prefix plus key) reads back as the resource it names |
| Ontology.FullIriInjective | converstion.py:23 | two resources have the same IRI exactly when they are the same resource |
| Rdf.Graph.Add | converstion.py:24 | `g.add` puts one triple into the set and changes nothing else |
| Rdf.InstancesOf | converstion.py:24 | the nodes of a class are exactly the subjects of an `rdf:type` triple naming it |
| Rdf.AccumulateMember | converstion.py:22 | the triples of a table are exactly those some row yields |
| Rdf.AccumulateSameRows | converstion.py:22 | the triples of a table depend only on which rows it holds, not on their order or repetition |
| Conversion.ReadColumn | converstion.py:49 | pandas decides per column: when every cell spells a boolean, every cell becomes a boolean that is true exactly for a true spelling; otherwise every cell stays text |
| Conversion.Matches | converstion.py:19 | the join rows of one instance row are exactly the planning rows whose `Course` is its `Instance_id` |
| Conversion.Merge | converstion.py:19 | every joined row pairs an instance row and a planning row with equal keys |
| Conversion.FirstMalformed | converstion.py:27 | the row where the loop stops is the first whose academic year `int()` rejects |
| Conversion.AddCourseRow | converstion.py:23-42 | one loop iteration adds the row's 13 triples, or only the first three when the year is malformed, and reports which |
| Conversion.ProcessCourseData | converstion.py:19-44 | the new graph is the old graph plus the triples of the processed rows of the join, and the result names the row that raised, if any |
| Conversion.AddStudentRow | converstion.py:54-75 | one loop iteration adds the student's 9 triples, choosing `TeachingAssistant` or `Student` by the name |
| Conversion.ProcessStudentData | converstion.py:52-77 | the new graph is the old graph plus the triples of every student row |
| Conversion.KeyedNodeCount | converstion.py:33 | distinct keys give distinct nodes, so a set of keys and its nodes have the same size |
| Conversion.FirstMalformedStops | converstion.py:27 | a malformed year after well-formed ones is where the loop stops |
| CourseProperties.MergeMember | converstion.py:19 | the join holds exactly the pairs with `Instance_id == Course` |
| CourseProperties.MergeSameRows | converstion.py:19 | the join depends only on which rows the two tables hold |
| CourseProperties.SplitHeadAtSeparator | converstion.py:27 | the text before the first `-` is what `split("-")[0]` yields |
| CourseProperties.StudyYearOf | converstion.py:27 | `ParseStudyYear` of a year written as a number, then `-`, then anything, gives that number as `studyYear` |
| CourseProperties.StudyYearExample | converstion.py:27 | `"2022-2023"` gives study year 2022 |
| CourseProperties.StudyYearMalformed | converstion.py:27 | a year starting with `-`, or with `HT-`, makes `int()` raise |
| CourseProperties.Processed | converstion.py:22-27 | the fully processed rows are a prefix of the join |
| CourseProperties.ProcessedSpec | converstion.py:22-27 | every processed row has a parsable year, and the row after them, if any, is the one whose year makes `int()` raise |
| CourseProperties.PrefixMember | converstion.py:22-27 | the triples of the rows up to the one that raised are those some of these rows yields |
| CourseProperties.CourseDeltaMember | converstion.py:22-42 | of `CourseDelta`: every added triple comes from a processed row or from the head of the row that raised, and all of those are added |
| CourseProperties.ProcessedRowTriples | converstion.py:23-42 | every processed row leaves its instance typed `CourseInstance` with its attributes, linked by `cInstanceOf` to its `Course` node and by `examinedBy` to its `SeniorTeacher` node with its `teacherId` |
| CourseProperties.FailedRowLeavesHead | converstion.py:23-27 | the row that raised leaves its instance type, id and study period |
| CourseProperties.UnplannedInstanceYieldsNothing | converstion.py:19-22 | an instance with no planning row is mentioned by no added triple |
| CourseProperties.RowMentionsOwnInstance | converstion.py:23-42 | a row's triples mention no other row's instance node |
| CourseProperties.RowSubjects | converstion.py:23-42 | every triple `CourseRowEmitted` gives for a row has the row's instance, course or examiner node as subject, and only the instance node when the year is malformed |
| CourseProperties.RowHeadAlwaysAdded | converstion.py:23-27 | a row always yields its three head triples, and yields only them exactly when its year is malformed |
| CourseProperties.RowCourseNode | converstion.py:33-35 | a row types a node `Course` exactly when its year parses and the node is its course node |
| CourseProperties.RowTeacherNode | converstion.py:39-40 | a row types a node `SeniorTeacher` exactly when its year parses and the node is its examiner node |
| CourseProperties.CourseTypedMember | converstion.py:33-35 | a node is typed `Course` exactly when it is the course node of a processed row |
| CourseProperties.TeacherTypedMember | converstion.py:39-40 | a node is typed `SeniorTeacher` exactly when it is the examiner node of a processed row |
| CourseProperties.CourseNodesAreKeyed | converstion.py:33-36 | the `Course` nodes are the nodes of the processed rows' course codes |
| CourseProperties.TeacherNodesAreKeyed | converstion.py:39-41 | the `SeniorTeacher` nodes are the nodes of the processed rows' examiners |
| CourseProperties.OneCourseNodePerCode | converstion.py:33-36 | the graph adds one `Course` node per distinct course code |
| CourseProperties.OneTeacherNodePerExaminer | converstion.py:39-41 | the graph adds one `SeniorTeacher` node per distinct examiner |
| CourseProperties.CourseDeltaSameRows | converstion.py:19-42 | when every year parses, reordering or repeating rows of either table changes no triple |
| CourseProperties.OrderMattersWhenAYearIsMalformed | converstion.py:22-27 | with a malformed year, swapping two joined rows changes the graph |
| CourseProperties.RerunCourseData | converstion.py:12-44 | calling `process_course_data` twice on one graph gives the graph of one call, and both calls stop at the same row |
| StudentProperties.StudentDeltaMember | converstion.py:52-75 | every added triple comes from some student row, and every row's triples are added |
| StudentProperties.TeachingAssistantNames | converstion.py:62 | `TA Anna` is a teaching assistant; `ta Anna`, `TA` and `TAnya` are not |
| StudentProperties.TeachingAssistantPrefix | converstion.py:62 | `IsTeachingAssistant` holds exactly for the names `TA ` followed by anything |
| StudentProperties.RowClassification | converstion.py:57-65 | `StudentRowTriples` of each row types its person `Person` and `TeachingAssistant` exactly when the name begins with `TA `, `Student` exactly when it does not |
| StudentProperties.RowRoles | converstion.py:57-70 | a row types only its own person node and its own programme node, only with `Person`, `TeachingAssistant`, `Student` and `Program`, and the person gets only the role its name says |
| StudentProperties.TeachingAssistantTyped | converstion.py:62-63 | a person is typed `TeachingAssistant` exactly when some row with its id has a `TA ` name |
| StudentProperties.StudentTyped | converstion.py:64-65 | a person is typed `Student` exactly when some row with its id has a name without the prefix |
| StudentProperties.BothRolesNeedConflictingRows | converstion.py:62-65 | a person gets both roles only from two rows with its id and different names |
| StudentProperties.ConsistentRowsGiveOneRole | converstion.py:62-65 | when the rows of an id agree on the name, the person gets exactly one role |
| StudentProperties.StudentRowPresent | converstion.py:54-75 | every row leaves its person's id, name, start year and graduated flag, and its enrolment in its typed programme node; the graduated flag is the comparison with `'True'` as written |
| StudentProperties.PersonNodesAreKeyed | converstion.py:54-57 | the `Person` nodes are the nodes of the student ids |
| StudentProperties.ProgramNodesAreKeyed | converstion.py:68-70 | the `Program` nodes are the nodes of the programme codes |
| StudentProperties.OnePersonPerId | converstion.py:54-57 | the graph adds one `Person` node per distinct student id |
| StudentProperties.OneProgramPerCode | converstion.py:68-70 | the graph adds one `Program` node per distinct programme code |
| StudentProperties.StudentDeltaSameRows | converstion.py:52-75 | reordering or repeating student rows changes no triple |
| StudentProperties.RerunStudentData | converstion.py:47-77 | calling `process_student_data` twice on one graph gives the graph of one call |
| StudentProperties.GraduatedLiteral | converstion.py:75 | a row's `graduated` literal is true exactly when its cell is the text `True` (`GraduatedAsWritten`), and the row adds no other `graduated` literal |
| StudentProperties.BooleanColumnGraduatesNobody | converstion.py:75 | when pandas reads the column as booleans, every `graduated` triple of the graph says false |
| StudentProperties.BooleanColumnReading | converstion.py:75 | on a column of boolean spellings the comparison as written is false for every row, while the corrected reading follows each spelling |
| StudentProperties.GraduatedAsWrittenMissesTrue | converstion.py:75 | the column `True`, `False` is read as booleans, and as written (`GraduatedAsWritten`) its first student is not graduated, while `GraduatedFlag` reads it as graduated |
| StudentProperties.GraduatedAgreesOnText | converstion.py:75 | on a text cell, the corrected reading `GraduatedFlag` agrees with the comparison as written: true exactly for `True` |

## Left out

- Reading the CSV files with `pd.read_csv` (converstion.py:15-16, :49) is file I/O. The tables are sequences of rows, and the columns the mapping reads are fields of those rows.
- Parsing the ontology file (converstion.py:9), writing the Turtle file and the message printed afterwards (converstion.py:88-89) are I/O in rdflib. The initial graph can only use the script's own vocabulary: `rdf:type`, the seven classes, the sixteen properties and the five node kinds, with string, integer and boolean literals. The ontology file's own triples (class declarations, `rdfs:domain` and `rdfs:range` statements, blank-node restrictions, language-tagged labels) cannot be represented. Every property is stated about the triples the mapping adds, so none depends on the initial graph.
- `main` (converstion.py:79-92) only sequences the two mappings. One consequence is not modelled: when `process_course_data` raises, `main` ends and the student mapping never runs.
- `int(float(row['Study period']))` (converstion.py:26) goes through floating point. The study period is a row field that is already an integer.
- `int()` of the planned-student and hour columns (converstion.py:28-30) and of `Year` (converstion.py:74) is applied to numeric columns. Those fields are integers in the model, so neither a rejected value nor the loss of a fraction is modelled.
- pandas merge internals are not modelled: column suffixes for clashing names, NaN keys, dtype conversion. The join keeps instance-row order, and within one instance row planning-row order, as pandas 2.2 and later do; earlier pandas versions group inner-join rows by key, which the model does not capture, and that order is visible when a year is malformed.
- Conversion.ReadColumn: only the boolean inference that affects `Graduated` is modelled. A column mixing boolean spellings with other text is kept as text. Missing cells are not modelled: pandas reads a `True`/`False` column with blanks as Python booleans plus NaN, so as written every `graduated` is false there too, and the model does not capture that case.
- `int()` accepts non-ASCII decimal digits; `PyText.ParseInt` accepts ASCII digits only.
- PyText.ParseInt: does not model the limit on the length of integer text that Python 3.11 and later (and 3.7.14, 3.8.14, 3.9.14, 3.10.7) impose by default. There `int()` raises `ValueError` for more than 4300 digits, so a year whose text before `-` is that long stops the course loop, while the model parses it. The limit depends on the interpreter version and is configurable at run time, so it is left out; `PyText.ParseIntDecimalText`, `PyText.ParseIntSpec` and `PyText.ParseDigitsSpec` match `int()` only on texts within it.
- rdflib's `Literal` normalisation to XSD lexical forms is not modelled. Literals are tagged values: string, integer and boolean.
- Conversion.Merge: its contract states one direction, that every joined row has matching keys. `CourseProperties.MergeMember` proves both directions.

## Findings

| source | as written | input that shows it | evidently intended | confidence | as-written member | corrected member |
|---|---|---|---|---|---|---|
| converstion.py:75 | `row['Graduated'] == 'True'` compares the cell with a string, but pandas reads a column holding only `True`/`False` spellings as booleans, and a boolean never equals a string | a `Graduated` column `True`, `False`: the first student gets `graduated false` | the flag the cell spells: true for `True` | not executed | StudentProperties.GraduatedAsWrittenMissesTrue and StudentProperties.BooleanColumnGraduatesNobody (on Conversion.GraduatedAsWritten, which the mapping uses) | StudentProperties.BooleanColumnReading (on Conversion.GraduatedFlag; the mapping itself follows the code) |

=== FILE: conversion.dfy ===
/**
 * The row-to-triple mapping of the conversion script: course instances
 * joined with their planning rows become `CourseInstance`, `Course` and
 * `SeniorTeacher` nodes; student rows become `Person` nodes typed
 * `TeachingAssistant` or `Student` and enrolled in a `Program`.
 *
 * Entity resolution is by identifier construction: every node's IRI is the
 * ontology namespace followed by a kind prefix and a key taken from the row,
 * so rows that share a key name the same node.
 */
module Conversion {
  import opened Wrappers
  import opened PyText
  import opened Ontology
  import opened Rdf

  /** `ns[f"<prefix>_{key}"]`: the node of an entity, named by its kind and key. */
  function NodeTerm(kind: NodeKind, key: string): Term {
    Iri(Node(kind, key))
  }

  /** `ns.<property>`. */
  function Prop(p: Property): Term {
    Iri(PropertyIri(p))
  }

  /** Distinct keys name distinct nodes, so a set of keys and its set of nodes have the same size. */
  lemma {:induction false} KeyedNodeCount(kind: NodeKind, keys: set<string>)
    ensures |set k | k in keys :: NodeTerm(kind, k)| == |keys|
  {
    if keys != {} {
      var k :| k in keys;
      var rest := keys - {k};
      KeyedNodeCount(kind, rest);
      assert (set x | x in keys :: NodeTerm(kind, x)) ==
        (set x | x in rest :: NodeTerm(kind, x)) + {NodeTerm(kind, k)};
    } else {
      assert (set x | x in keys :: NodeTerm(kind, x)) == {};
    }
  }

  // ---------------------------------------------------------------- tables

  /** A row of `Course_Instances.csv`, with the columns the mapping reads. */
  datatype InstanceRow = InstanceRow(
    instanceId: string,
    courseCode: string,
    studyPeriod: int,
    academicYear: string,
    examiner: string)

  /** A row of `Course_plannings.csv`; `course` holds an instance id. */
  datatype PlanningRow = PlanningRow(
    course: string,
    plannedStudents: int,
    seniorHours: int,
    assistantHours: int)

  /** A row of the inner join of the two tables. */
  datatype MergedRow = MergedRow(instance: InstanceRow, planning: PlanningRow)

  /** A cell as pandas reads it: text, or a boolean when the whole column spells booleans. */
  datatype Cell = Text(text: string) | Flag(flag: bool)

  /** A row of `Students.csv`. */
  datatype StudentRow = StudentRow(
    studentId: string,
    name: string,
    programme: string,
    year: int,
    graduated: Cell)

  /** The spellings pandas reads as `True` and as `False`. */
  const TrueWords: set<string> := {"True", "TRUE", "true"}
  const FalseWords: set<string> := {"False", "FALSE", "false"}

  /**
   * How `read_csv` reads one column: when every cell spells a boolean the
   * column becomes boolean, otherwise it stays text.
   */
  function ReadColumn(texts: seq<string>): (cells: seq<Cell>)
    ensures |cells| == |texts|
    ensures (forall i :: 0 <= i < |texts| ==> texts[i] in TrueWords || texts[i] in FalseWords) ==>
      forall i :: 0 <= i < |texts| ==> cells[i] == Flag(texts[i] in TrueWords)
    ensures !(forall i :: 0 <= i < |texts| ==> texts[i] in TrueWords || texts[i] in FalseWords) ==>
      forall i :: 0 <= i < |texts| ==> cells[i] == Text(texts[i])
  {
    if forall t :: t in texts ==> t in TrueWords || t in FalseWords
    then seq(|texts|, i requires 0 <= i < |texts| => Flag(texts[i] in TrueWords))
    else seq(|texts|, i requires 0 <= i < |texts| => Text(texts[i]))
  }

  /** The rows that match `row` on `Instance_id == Course`, in planning order. */
  function Matches(row: InstanceRow, plannings: seq<PlanningRow>): (ms: seq<MergedRow>)
    ensures forall m :: m in ms <==>
      m.instance == row && m.planning in plannings && row.instanceId == m.planning.course
  {
    if plannings == [] then []
    else
      var rest := Matches(row, plannings[1..]);
      if row.instanceId == plannings[0].course then [MergedRow(row, plannings[0])] + rest else rest
  }

  /**
   * `pd.merge(instances, plannings, left_on="Instance_id", right_on="Course",
   * how="inner")`: the matching pairs, in the order of the instance rows.
   */
  function Merge(instances: seq<InstanceRow>, plannings: seq<PlanningRow>): (merged: seq<MergedRow>)
    ensures forall m :: m in merged ==>
      m.instance in instances && m.planning in plannings && m.instance.instanceId == m.planning.course
  {
    if instances == [] then [] else Matches(instances[0], plannings) + Merge(instances[1..], plannings)
  }

  // ---------------------------------------------------------------- course mapping

  /** `int(academic_year.split("-")[0])`; `None` where Python raises `ValueError`. */
  function ParseStudyYear(academicYear: string): Option<int> {
    ParseInt(SplitHead(academicYear, '-'))
  }

  /** The triples a merged row adds before its academic year is parsed. */
  function InstanceHead(m: MergedRow): set<Triple> {
    var ci := NodeTerm(InstanceNode, m.instance.instanceId);
    { TypeTriple(ci, CourseInstance),
      Triple(ci, Prop(InstanceId), Lit(Str(m.instance.instanceId))),
      Triple(ci, Prop(StudyPeriod), Lit(Int(m.instance.studyPeriod))) }
  }

  /** The triples of a merged row from its academic year and its planning columns. */
  function PlanningTriples(m: MergedRow, year: int): set<Triple> {
    var ci := NodeTerm(InstanceNode, m.instance.instanceId);
    { Triple(ci, Prop(StudyYear), Lit(Int(year))),
      Triple(ci, Prop(PlanningNumStudents), Lit(Int(m.planning.plannedStudents))),
      Triple(ci, Prop(SeniorHours), Lit(Int(m.planning.seniorHours))),
      Triple(ci, Prop(AssistantHours), Lit(Int(m.planning.assistantHours))) }
  }

  /** The triples linking a course instance to its course. */
  function CourseLinkTriples(m: MergedRow): set<Triple> {
    var ci := NodeTerm(InstanceNode, m.instance.instanceId);
    var course := NodeTerm(CourseNode, m.instance.courseCode);
    { Triple(ci, Prop(CInstanceOf), course),
      TypeTriple(course, Course),
      Triple(course, Prop(CourseCode), Lit(Str(m.instance.courseCode))) }
  }

  /** The triples linking a course instance to its examiner. */
  function ExaminerTriples(m: MergedRow): set<Triple> {
    var ci := NodeTerm(InstanceNode, m.instance.instanceId);
    var teacher := NodeTerm(TeacherNode, m.instance.examiner);
    { TypeTriple(teacher, SeniorTeacher),
      Triple(teacher, Prop(TeacherId), Lit(Str(m.instance.examiner))),
      Triple(ci, Prop(ExaminedBy), teacher) }
  }

  /** All the triples of a merged row whose academic year reads as `year`. */
  function CourseRowTriples(m: MergedRow, year: int): set<Triple> {
    InstanceHead(m) + PlanningTriples(m, year) + CourseLinkTriples(m) + ExaminerTriples(m)
  }

  /** What processing one merged row adds: everything, or only its head when the year is malformed. */
  function CourseRowEmitted(m: MergedRow): set<Triple> {
    match ParseStudyYear(m.instance.academicYear)
    case None => InstanceHead(m)
    case Some(year) => CourseRowTriples(m, year)
  }

  /** The position of the first merged row whose academic year does not parse. */
  function FirstMalformed(rows: seq<MergedRow>): (r: Option<nat>)
    ensures r.None? ==> forall i :: 0 <= i < |rows| ==> ParseStudyYear(rows[i].instance.academicYear).Some?
    ensures r.Some? ==> r.value < |rows| && ParseStudyYear(rows[r.value].instance.academicYear).None?
    ensures r.Some? ==> forall i :: 0 <= i < r.value ==> ParseStudyYear(rows[i].instance.academicYear).Some?
  {
    if rows == [] then None
    else if ParseStudyYear(rows[0].instance.academicYear).None? then Some(0)
    else match FirstMalformed(rows[1..])
      case None => None
      case Some(k) => Some(k + 1)
  }

  /**
   * The triples `process_course_data` adds for the merged rows: those of
   * every row when all years parse, and otherwise those of the rows before
   * the first malformed one and the head of that one, where the exception
   * stops the loop.
   */
  function CourseDelta(rows: seq<MergedRow>): set<Triple> {
    match FirstMalformed(rows)
    case None => Accumulate(rows, CourseRowEmitted)
    case Some(k) => Accumulate(rows[..k + 1], CourseRowEmitted)
  }

  /** The body of the loop of `process_course_data`, for one merged row. */
  method AddCourseRow(g: Graph, m: MergedRow) returns (ok: bool)
    modifies g
    ensures ok <==> ParseStudyYear(m.instance.academicYear).Some?
    ensures g.triples == old(g.triples) + CourseRowEmitted(m)
  {
    var row, plan := m.instance, m.planning;
    var ci := NodeTerm(InstanceNode, row.instanceId);
    g.Add(TypeTriple(ci, CourseInstance));
    g.Add(Triple(ci, Prop(InstanceId), Lit(Str(row.instanceId))));
    g.Add(Triple(ci, Prop(StudyPeriod), Lit(Int(row.studyPeriod))));
    assert g.triples == old(g.triples) + InstanceHead(m);
    var year := ParseStudyYear(row.academicYear);
    if year.None? {
      return false;
    }
    g.Add(Triple(ci, Prop(StudyYear), Lit(Int(year.value))));
    g.Add(Triple(ci, Prop(PlanningNumStudents), Lit(Int(plan.plannedStudents))));
    g.Add(Triple(ci, Prop(SeniorHours), Lit(Int(plan.seniorHours))));
    g.Add(Triple(ci, Prop(AssistantHours), Lit(Int(plan.assistantHours))));
    assert g.triples == old(g.triples) + InstanceHead(m) + PlanningTriples(m, year.value);

    var course := NodeTerm(CourseNode, row.courseCode);
    g.Add(Triple(ci, Prop(CInstanceOf), course));
    g.Add(TypeTriple(course, Course));
    g.Add(Triple(course, Prop(CourseCode), Lit(Str(row.courseCode))));
    assert g.triples == old(g.triples) + InstanceHead(m) + PlanningTriples(m, year.value) + CourseLinkTriples(m);

    var teacher := NodeTerm(TeacherNode, row.examiner);
    g.Add(TypeTriple(teacher, SeniorTeacher));
    g.Add(Triple(teacher, Prop(TeacherId), Lit(Str(row.examiner))));
    g.Add(Triple(ci, Prop(ExaminedBy), teacher));
    return true;
  }

  /**
   * `process_course_data`: joins the two tables and adds the triples of every
   * merged row to `g`. A malformed academic year aborts the loop; `failedAt`
   * is then the position of that row, and `g` keeps what was already added.
   */
  method ProcessCourseData(g: Graph, instances: seq<InstanceRow>, plannings: seq<PlanningRow>)
    returns (failedAt: Option<nat>)
    modifies g
    ensures failedAt == FirstMalformed(Merge(instances, plannings))
    ensures g.triples == old(g.triples) + CourseDelta(Merge(instances, plannings))
  {
    var merged := Merge(instances, plannings);
    var i := 0;
    while i < |merged|
      invariant 0 <= i <= |merged|
      invariant FirstMalformed(merged[..i]) == None
      invariant g.triples == old(g.triples) + Accumulate(merged[..i], CourseRowEmitted)
    {
      var ok := AddCourseRow(g, merged[i]);
      AccumulateStep(merged, i, CourseRowEmitted);
      AddInTurn(old(g.triples), Accumulate(merged[..i], CourseRowEmitted), CourseRowEmitted(merged[i]));
      if !ok {
        FirstMalformedStops(merged, i);
        CourseDeltaStopsAt(merged, i);
        return Some(i);
      }
      FirstMalformedStep(merged, i);
      i := i + 1;
    }
    assert merged[..i] == merged;
    CourseDeltaRunsThrough(merged);
    return None;
  }

  /** A row whose year parses, after rows that all parse, extends the run without failure. */
  lemma FirstMalformedStep(rows: seq<MergedRow>, i: nat)
    requires i < |rows| && FirstMalformed(rows[..i]) == None
    requires ParseStudyYear(rows[i].instance.academicYear).Some?
    ensures FirstMalformed(rows[..i + 1]) == None
  {
    var next := rows[..i + 1];
    forall k | 0 <= k < i + 1
      ensures ParseStudyYear(next[k].instance.academicYear).Some?
    {
      if k < i {
        assert rows[..i][k] == next[k];
      }
    }
    match FirstMalformed(next)
    case None =>
    case Some(j) =>
      assert false;
  }

  /** A malformed row after rows that all parse is the first malformed one. */
  lemma FirstMalformedStops(rows: seq<MergedRow>, k: nat)
    requires k < |rows| && FirstMalformed(rows[..k]) == None
    requires ParseStudyYear(rows[k].instance.academicYear).None?
    ensures FirstMalformed(rows) == Some(k)
  {
    forall i | 0 <= i < k
      ensures ParseStudyYear(rows[i].instance.academicYear).Some?
    {
      assert rows[..k][i] == rows[i];
    }
    match FirstMalformed(rows)
    case None =>
      assert false;
    case Some(j) =>
      if j != k {
        assert false;
      }
  }

  /** When the loop stops at row `k`, the rows up to and including `k` have been processed. */
  lemma CourseDeltaStopsAt(rows: seq<MergedRow>, k: nat)
    requires FirstMalformed(rows) == Some(k)
    ensures CourseDelta(rows) == Accumulate(rows[..k + 1], CourseRowEmitted)
  {
  }

  /** When no row is malformed, every row has been processed. */
  lemma CourseDeltaRunsThrough(rows: seq<MergedRow>)
    requires FirstMalformed(rows) == None
    ensures CourseDelta(rows) == Accumulate(rows, CourseRowEmitted)
  {
  }

  // ---------------------------------------------------------------- student mapping

  /** `name.startswith('TA ')`: the row describes a teaching assistant. */
  predicate IsTeachingAssistant(name: string) {
    StartsWith(name, "TA ")
  }

  /** The flag a `Graduated` cell spells: `True` as text, or a true boolean. */
  function GraduatedFlag(c: Cell): bool {
    match c
    case Text(t) => t == "True"
    case Flag(b) => b
  }

  /** `row['Graduated'] == 'True'`: only the text `True` compares equal; a boolean cell never equals the string. */
  function GraduatedAsWritten(c: Cell): bool {
    c == Text("True")
  }

  /** The triples `process_student_data` adds for one student row. */
  function StudentRowTriples(r: StudentRow): set<Triple> {
    var person := NodeTerm(PersonNode, r.studentId);
    var program := NodeTerm(ProgramNode, r.programme);
    { TypeTriple(person, Person),
      Triple(person, Prop(PersonId), Lit(Str(r.studentId))),
      Triple(person, Prop(Name), Lit(Str(r.name))),
      TypeTriple(person, if IsTeachingAssistant(r.name) then TeachingAssistant else Student),
      TypeTriple(program, Program),
      Triple(program, Prop(ProgramCode), Lit(Str(r.programme))),
      Triple(person, Prop(EnrolledIn), program),
      Triple(person, Prop(YearStarted), Lit(Int(r.year))),
      Triple(person, Prop(Graduated), Lit(Bool(GraduatedAsWritten(r.graduated)))) }
  }

  /** The body of the loop of `process_student_data`, for one student row. */
  method AddStudentRow(g: Graph, r: StudentRow)
    modifies g
    ensures g.triples == old(g.triples) + StudentRowTriples(r)
  {
    var person := NodeTerm(PersonNode, r.studentId);
    g.Add(TypeTriple(person, Person));
    g.Add(Triple(person, Prop(PersonId), Lit(Str(r.studentId))));
    g.Add(Triple(person, Prop(Name), Lit(Str(r.name))));

    if IsTeachingAssistant(r.name) {
      g.Add(TypeTriple(person, TeachingAssistant));
    } else {
      g.Add(TypeTriple(person, Student));
    }

    var program := NodeTerm(ProgramNode, r.programme);
    g.Add(TypeTriple(program, Program));
    g.Add(Triple(program, Prop(ProgramCode), Lit(Str(r.programme))));
    g.Add(Triple(person, Prop(EnrolledIn), program));

    g.Add(Triple(person, Prop(YearStarted), Lit(Int(r.year))));
    g.Add(Triple(person, Prop(Graduated), Lit(Bool(GraduatedAsWritten(r.graduated)))));
  }

  /** The triples `process_student_data` adds for a table: those of every row. */
  function StudentDelta(students: seq<StudentRow>): set<Triple> {
    Accumulate(students, StudentRowTriples)
  }

  /** `process_student_data`: adds the triples of every student row to `g`. */
  method ProcessStudentData(g: Graph, students: seq<StudentRow>)
    modifies g
    ensures g.triples == old(g.triples) + StudentDelta(students)
  {
    var i := 0;
    while i < |students|
      invariant 0 <= i <= |students|
      invariant g.triples == old(g.triples) + Accumulate(students[..i], StudentRowTriples)
    {
      AddStudentRow(g, students[i]);
      assert students[..i + 1][..i] == students[..i];
      i := i + 1;
    }
    assert students[..i] == students;
  }
}

=== FILE: course_properties.dfy ===
/**
 * What `process_course_data` promises about the graph it builds: which
 * merged rows there are, which triples each of them yields, how course and
 * examiner nodes are shared between rows, and when row order matters.
 */
module CourseProperties {
  import opened Wrappers
  import opened PyText
  import opened Ontology
  import opened Rdf
  import opened Conversion

  // ---------------------------------------------------------------- the join

  /** The merge holds exactly the pairs of an instance row and a planning row with `Instance_id == Course`. */
  lemma {:induction false} MergeMember(instances: seq<InstanceRow>, plannings: seq<PlanningRow>, m: MergedRow)
    ensures m in Merge(instances, plannings) <==>
      m.instance in instances && m.planning in plannings && m.instance.instanceId == m.planning.course
  {
    if instances != [] {
      MergeMember(instances[1..], plannings, m);
      if m.instance in instances && m.instance != instances[0] {
        assert m.instance in instances[1..];
      }
    }
  }

  /** The merge depends only on which rows the two tables hold, not on their order or repetitions. */
  lemma MergeSameRows(instances: seq<InstanceRow>, plannings: seq<PlanningRow>,
                      instances': seq<InstanceRow>, plannings': seq<PlanningRow>, m: MergedRow)
    requires forall r :: r in instances <==> r in instances'
    requires forall p :: p in plannings <==> p in plannings'
    ensures m in Merge(instances, plannings) <==> m in Merge(instances', plannings')
  {
    MergeMember(instances, plannings, m);
    MergeMember(instances', plannings', m);
  }

  // ---------------------------------------------------------------- the academic year

  /** A split at the first `-` yields the text before it. */
  lemma {:induction false} SplitHeadAtSeparator(a: string, b: string, sep: char)
    requires sep !in a
    ensures SplitHead(a + [sep] + b, sep) == a
  {
    if a != [] {
      assert (a + [sep] + b)[1..] == a[1..] + [sep] + b;
      SplitHeadAtSeparator(a[1..], b, sep);
    }
  }

  /** `studyYear` is the number written before the first `-` of `Academic year`. */
  lemma StudyYearOf(year: nat, rest: string)
    ensures ParseStudyYear(DecimalText(year) + "-" + rest) == Some(year)
  {
    SplitHeadAtSeparator(DecimalText(year), rest, '-');
    ParseIntDecimalText(year);
  }

  /** The year `"2022-2023"` reads as 2022. */
  lemma StudyYearExample()
    ensures ParseStudyYear("2022-2023") == Some(2022)
  {
    assert DecimalText(2022) == "2022";
    StudyYearOf(2022, "2023");
    assert DecimalText(2022) + "-" + "2023" == "2022-2023";
  }

  /** A year that begins with `-`, or has no digit before the first `-`, makes `int()` raise. */
  lemma StudyYearMalformed(rest: string)
    ensures ParseStudyYear("-" + rest) == None
    ensures ParseStudyYear("HT-" + rest) == None
  {
    SplitHeadAtSeparator("", rest, '-');
    assert "" + ['-'] + rest == "-" + rest;
    SplitHeadAtSeparator("HT", rest, '-');
    assert "HT" + ['-'] + rest == "HT-" + rest;
    ParseIntNeedsDigit("");
    ParseIntNeedsDigit("HT");
  }

  // ---------------------------------------------------------------- provenance

  /** The rows whose triples were all added: those before the first malformed row, or all of them. */
  function Processed(rows: seq<MergedRow>): (done: seq<MergedRow>)
    ensures done <= rows
  {
    match FirstMalformed(rows)
    case None => rows
    case Some(k) => rows[..k]
  }

  /** The processed rows all have parsable years, and the row after them, if any, does not. */
  lemma ProcessedSpec(rows: seq<MergedRow>)
    ensures forall i :: 0 <= i < |Processed(rows)| ==> ParseStudyYear(rows[i].instance.academicYear).Some?
    ensures |Processed(rows)| < |rows| ==> ParseStudyYear(rows[|Processed(rows)|].instance.academicYear).None?
  {
  }

  /**
   * Every triple the course mapping adds comes from one merged row: fully
   * from a processed row, or from the head of the row that failed.
   */
  lemma CourseDeltaMember(rows: seq<MergedRow>, t: Triple)
    ensures t in CourseDelta(rows) <==>
      (exists i :: 0 <= i < |rows| && i <= |Processed(rows)| && t in CourseRowEmitted(rows[i]))
  {
    match FirstMalformed(rows)
    case None =>
      AccumulateMember(rows, CourseRowEmitted, t);
    case Some(k) =>
      PrefixMember(rows, k, t);
  }

  /** The triples of the rows up to and including `k` are those some row at or before `k` yields. */
  lemma PrefixMember(rows: seq<MergedRow>, k: nat, t: Triple)
    requires k < |rows|
    ensures t in Accumulate(rows[..k + 1], CourseRowEmitted) <==>
      (exists i :: 0 <= i < |rows| && i <= k && t in CourseRowEmitted(rows[i]))
  {
    var done := rows[..k + 1];
    AccumulateMember(done, CourseRowEmitted, t);
    if t in Accumulate(done, CourseRowEmitted) {
      var i :| 0 <= i < |done| && t in CourseRowEmitted(done[i]);
      assert done[i] == rows[i];
    }
    if exists i :: 0 <= i < |rows| && i <= k && t in CourseRowEmitted(rows[i]) {
      var i :| 0 <= i < |rows| && i <= k && t in CourseRowEmitted(rows[i]);
      assert done[i] == rows[i];
    }
  }

  /**
   * For every processed merged row the graph holds the instance typed
   * `CourseInstance` with its attributes, its `cInstanceOf` link to the course
   * node typed `Course`, and its `examinedBy` link to the examiner node typed
   * `SeniorTeacher` with that `teacherId`.
   */
  lemma ProcessedRowTriples(rows: seq<MergedRow>, i: nat)
    requires i < |Processed(rows)|
    ensures var m := rows[i];
      var year := ParseStudyYear(m.instance.academicYear).value;
      var ci := NodeTerm(InstanceNode, m.instance.instanceId);
      var course := NodeTerm(CourseNode, m.instance.courseCode);
      var teacher := NodeTerm(TeacherNode, m.instance.examiner);
      && TypeTriple(ci, CourseInstance) in CourseDelta(rows)
      && Triple(ci, Prop(InstanceId), Lit(Str(m.instance.instanceId))) in CourseDelta(rows)
      && Triple(ci, Prop(StudyPeriod), Lit(Int(m.instance.studyPeriod))) in CourseDelta(rows)
      && Triple(ci, Prop(StudyYear), Lit(Int(year))) in CourseDelta(rows)
      && Triple(ci, Prop(PlanningNumStudents), Lit(Int(m.planning.plannedStudents))) in CourseDelta(rows)
      && Triple(ci, Prop(SeniorHours), Lit(Int(m.planning.seniorHours))) in CourseDelta(rows)
      && Triple(ci, Prop(AssistantHours), Lit(Int(m.planning.assistantHours))) in CourseDelta(rows)
      && Triple(ci, Prop(CInstanceOf), course) in CourseDelta(rows)
      && TypeTriple(course, Course) in CourseDelta(rows)
      && Triple(course, Prop(CourseCode), Lit(Str(m.instance.courseCode))) in CourseDelta(rows)
      && Triple(ci, Prop(ExaminedBy), teacher) in CourseDelta(rows)
      && TypeTriple(teacher, SeniorTeacher) in CourseDelta(rows)
      && Triple(teacher, Prop(TeacherId), Lit(Str(m.instance.examiner))) in CourseDelta(rows)
  {
    ProcessedSpec(rows);
    forall t | t in CourseRowEmitted(rows[i])
      ensures t in CourseDelta(rows)
    {
      CourseDeltaMember(rows, t);
    }
  }

  /** The row that failed has already added its instance node, its id and its study period. */
  lemma FailedRowLeavesHead(rows: seq<MergedRow>)
    requires |Processed(rows)| < |rows|
    ensures InstanceHead(rows[|Processed(rows)|]) <= CourseDelta(rows)
  {
    var k := |Processed(rows)|;
    forall t | t in InstanceHead(rows[k])
      ensures t in CourseDelta(rows)
    {
      CourseDeltaMember(rows, t);
    }
  }

  /**
   * An instance whose id matches no planning row contributes nothing: no
   * triple of the course mapping mentions its node.
   */
  lemma UnplannedInstanceYieldsNothing(instances: seq<InstanceRow>, plannings: seq<PlanningRow>, id: string)
    requires forall p :: p in plannings ==> p.course != id
    ensures forall t :: t in CourseDelta(Merge(instances, plannings)) ==>
      t.s != NodeTerm(InstanceNode, id) && t.o != NodeTerm(InstanceNode, id)
  {
    var merged := Merge(instances, plannings);
    forall t | t in CourseDelta(merged)
      ensures t.s != NodeTerm(InstanceNode, id) && t.o != NodeTerm(InstanceNode, id)
    {
      CourseDeltaMember(merged, t);
      var i :| 0 <= i < |merged| && i <= |Processed(merged)| && t in CourseRowEmitted(merged[i]);
      assert merged[i] in merged;
      RowMentionsOwnInstance(merged[i], t, id);
    }
  }

  /** A row's triples mention no instance node other than the row's own. */
  lemma RowMentionsOwnInstance(m: MergedRow, t: Triple, id: string)
    requires t in CourseRowEmitted(m)
    requires m.instance.instanceId != id
    ensures t.s != NodeTerm(InstanceNode, id) && t.o != NodeTerm(InstanceNode, id)
  {
    match ParseStudyYear(m.instance.academicYear)
    case None =>
    case Some(y) =>
      assert t in InstanceHead(m) || t in PlanningTriples(m, y) || t in CourseLinkTriples(m) || t in ExaminerTriples(m);
  }

  // ---------------------------------------------------------------- entity merging

  /**
   * A row's triples are about its own nodes: every subject is its instance,
   * course or examiner node; the instance head is always added, and the
   * rest only when the year parses.
   */
  lemma RowSubjects(m: MergedRow, t: Triple)
    requires t in CourseRowEmitted(m)
    ensures t.s in {NodeTerm(InstanceNode, m.instance.instanceId), NodeTerm(CourseNode, m.instance.courseCode),
                    NodeTerm(TeacherNode, m.instance.examiner)}
    ensures ParseStudyYear(m.instance.academicYear).None? ==> t.s == NodeTerm(InstanceNode, m.instance.instanceId)
  {
    match ParseStudyYear(m.instance.academicYear)
    case None =>
    case Some(y) =>
      assert t in InstanceHead(m) || t in PlanningTriples(m, y) || t in CourseLinkTriples(m) || t in ExaminerTriples(m);
  }

  /** The head of a row is always among its triples, whatever its year. */
  lemma RowHeadAlwaysAdded(m: MergedRow)
    ensures InstanceHead(m) <= CourseRowEmitted(m)
    ensures ParseStudyYear(m.instance.academicYear).None? <==> CourseRowEmitted(m) == InstanceHead(m)
  {
    match ParseStudyYear(m.instance.academicYear)
    case None =>
    case Some(y) =>
      var ci := NodeTerm(InstanceNode, m.instance.instanceId);
      assert Triple(ci, Prop(StudyYear), Lit(Int(y))) in CourseRowEmitted(m);
  }

  /** Within one row, only the course node is typed `Course`, and only when the year parses. */
  lemma RowCourseNode(m: MergedRow, n: Term)
    ensures TypeTriple(n, Course) in CourseRowEmitted(m) <==>
      ParseStudyYear(m.instance.academicYear).Some? && n == NodeTerm(CourseNode, m.instance.courseCode)
  {
    match ParseStudyYear(m.instance.academicYear)
    case None =>
      assert CourseRowEmitted(m) == InstanceHead(m);
    case Some(y) =>
      assert CourseRowEmitted(m) == CourseRowTriples(m, y);
  }

  /** Within one row, only the examiner node is typed `SeniorTeacher`, and only when the year parses. */
  lemma RowTeacherNode(m: MergedRow, n: Term)
    ensures TypeTriple(n, SeniorTeacher) in CourseRowEmitted(m) <==>
      ParseStudyYear(m.instance.academicYear).Some? && n == NodeTerm(TeacherNode, m.instance.examiner)
  {
    match ParseStudyYear(m.instance.academicYear)
    case None =>
      assert CourseRowEmitted(m) == InstanceHead(m);
    case Some(y) =>
      assert CourseRowEmitted(m) == CourseRowTriples(m, y);
  }

  /** A triple a joined row yields is in the graph only if the row is processed or is the one that raised. */
  lemma RowOfDeltaTriple(rows: seq<MergedRow>, t: Triple) returns (i: nat)
    requires t in CourseDelta(rows)
    ensures i < |rows| && i <= |Processed(rows)| && t in CourseRowEmitted(rows[i])
  {
    CourseDeltaMember(rows, t);
    i :| 0 <= i < |rows| && i <= |Processed(rows)| && t in CourseRowEmitted(rows[i]);
  }

  /** A row at or before the stopping point whose year parses is a processed row. */
  lemma ParsedRowProcessed(rows: seq<MergedRow>, i: nat)
    requires i < |rows| && i <= |Processed(rows)|
    requires ParseStudyYear(rows[i].instance.academicYear).Some?
    ensures i < |Processed(rows)| && Processed(rows)[i] == rows[i]
  {
    ProcessedSpec(rows);
  }

  /** A node is typed `Course` exactly when it is the course node of a processed row. */
  lemma CourseTypedMember(rows: seq<MergedRow>, n: Term)
    ensures TypeTriple(n, Course) in CourseDelta(rows) <==>
      exists m :: m in Processed(rows) && n == NodeTerm(CourseNode, m.instance.courseCode)
  {
    var done := Processed(rows);
    var t := TypeTriple(n, Course);
    if t in CourseDelta(rows) {
      var i := RowOfDeltaTriple(rows, t);
      RowCourseNode(rows[i], n);
      ParsedRowProcessed(rows, i);
      assert done[i] in done;
    }
    if exists m :: m in done && n == NodeTerm(CourseNode, m.instance.courseCode) {
      var m :| m in done && n == NodeTerm(CourseNode, m.instance.courseCode);
      var i :| 0 <= i < |done| && done[i] == m;
      assert rows[i] == m;
      RowCourseNode(m, n);
      CourseDeltaMember(rows, t);
    }
  }

  /** A node is typed `SeniorTeacher` exactly when it is the examiner node of a processed row. */
  lemma TeacherTypedMember(rows: seq<MergedRow>, n: Term)
    ensures TypeTriple(n, SeniorTeacher) in CourseDelta(rows) <==>
      exists m :: m in Processed(rows) && n == NodeTerm(TeacherNode, m.instance.examiner)
  {
    var done := Processed(rows);
    var t := TypeTriple(n, SeniorTeacher);
    if t in CourseDelta(rows) {
      var i := RowOfDeltaTriple(rows, t);
      RowTeacherNode(rows[i], n);
      ParsedRowProcessed(rows, i);
      assert done[i] in done;
    }
    if exists m :: m in done && n == NodeTerm(TeacherNode, m.instance.examiner) {
      var m :| m in done && n == NodeTerm(TeacherNode, m.instance.examiner);
      var i :| 0 <= i < |done| && done[i] == m;
      assert rows[i] == m;
      RowTeacherNode(m, n);
      CourseDeltaMember(rows, t);
    }
  }

  /**
   * The `Course` nodes of the graph are the nodes of the course codes of the
   * processed rows: rows sharing a code share the node.
   */
  lemma CourseNodesAreKeyed(rows: seq<MergedRow>)
    ensures InstancesOf(CourseDelta(rows), Course) ==
      set m | m in Processed(rows) :: NodeTerm(CourseNode, m.instance.courseCode)
  {
    var nodes := set m | m in Processed(rows) :: NodeTerm(CourseNode, m.instance.courseCode);
    forall n
      ensures n in InstancesOf(CourseDelta(rows), Course) <==> n in nodes
    {
      CourseTypedMember(rows, n);
    }
  }

  /**
   * The `SeniorTeacher` nodes of the graph are the nodes of the examiners of
   * the processed rows: rows sharing an examiner share the node.
   */
  lemma TeacherNodesAreKeyed(rows: seq<MergedRow>)
    ensures InstancesOf(CourseDelta(rows), SeniorTeacher) ==
      set m | m in Processed(rows) :: NodeTerm(TeacherNode, m.instance.examiner)
  {
    var nodes := set m | m in Processed(rows) :: NodeTerm(TeacherNode, m.instance.examiner);
    forall n
      ensures n in InstancesOf(CourseDelta(rows), SeniorTeacher) <==> n in nodes
    {
      TeacherTypedMember(rows, n);
    }
  }

  /** The graph holds exactly one `Course` node per distinct course code among the processed rows. */
  lemma OneCourseNodePerCode(rows: seq<MergedRow>)
    ensures |InstancesOf(CourseDelta(rows), Course)| ==
      |set m | m in Processed(rows) :: m.instance.courseCode|
  {
    var codes := set m | m in Processed(rows) :: m.instance.courseCode;
    CourseNodesAreKeyed(rows);
    assert (set m | m in Processed(rows) :: NodeTerm(CourseNode, m.instance.courseCode)) ==
      (set c | c in codes :: NodeTerm(CourseNode, c));
    KeyedNodeCount(CourseNode, codes);
  }

  /** The graph holds exactly one `SeniorTeacher` node per distinct examiner among the processed rows. */
  lemma OneTeacherNodePerExaminer(rows: seq<MergedRow>)
    ensures |InstancesOf(CourseDelta(rows), SeniorTeacher)| ==
      |set m | m in Processed(rows) :: m.instance.examiner|
  {
    var examiners := set m | m in Processed(rows) :: m.instance.examiner;
    TeacherNodesAreKeyed(rows);
    assert (set m | m in Processed(rows) :: NodeTerm(TeacherNode, m.instance.examiner)) ==
      (set e | e in examiners :: NodeTerm(TeacherNode, e));
    KeyedNodeCount(TeacherNode, examiners);
  }

  // ---------------------------------------------------------------- order, repetition, re-runs

  /**
   * When every year parses, the added triples depend only on which rows the
   * two tables hold: reordering or repeating rows changes nothing.
   */
  lemma CourseDeltaSameRows(instances: seq<InstanceRow>, plannings: seq<PlanningRow>,
                            instances': seq<InstanceRow>, plannings': seq<PlanningRow>)
    requires forall r :: r in instances <==> r in instances'
    requires forall p :: p in plannings <==> p in plannings'
    requires FirstMalformed(Merge(instances, plannings)) == None
    ensures FirstMalformed(Merge(instances', plannings')) == None
    ensures CourseDelta(Merge(instances, plannings)) == CourseDelta(Merge(instances', plannings'))
  {
    var merged, merged' := Merge(instances, plannings), Merge(instances', plannings');
    forall m
      ensures m in merged <==> m in merged'
    {
      MergeSameRows(instances, plannings, instances', plannings', m);
    }
    forall i | 0 <= i < |merged'|
      ensures ParseStudyYear(merged'[i].instance.academicYear).Some?
    {
      assert merged'[i] in merged;
    }
    AccumulateSameRows(merged, merged', CourseRowEmitted);
  }

  /**
   * With a malformed year, order does matter: the rows before it are
   * processed and the rows after it are not.
   */
  lemma OrderMattersWhenAYearIsMalformed()
    ensures var good := MergedRow(InstanceRow("I1", "C1", 1, "2022-2023", "E1"), PlanningRow("I1", 10, 20, 30));
      var bad := MergedRow(InstanceRow("I2", "C2", 1, "-", "E2"), PlanningRow("I2", 10, 20, 30));
      CourseDelta([good, bad]) != CourseDelta([bad, good])
  {
    var good := MergedRow(InstanceRow("I1", "C1", 1, "2022-2023", "E1"), PlanningRow("I1", 10, 20, 30));
    var bad := MergedRow(InstanceRow("I2", "C2", 1, "-", "E2"), PlanningRow("I2", 10, 20, 30));
    StudyYearExample();
    StudyYearMalformed("");
    assert "-" + "" == "-";
    var t := TypeTriple(NodeTerm(CourseNode, "C1"), Course);
    assert FirstMalformed([good, bad]) == Some(1);
    assert FirstMalformed([bad, good]) == Some(0);
    CourseDeltaMember([good, bad], t);
    CourseDeltaMember([bad, good], t);
    assert t in CourseRowEmitted(good);
    assert t in CourseDelta([good, bad]);
    RowCourseNode(bad, NodeTerm(CourseNode, "C1"));
    assert t !in CourseDelta([bad, good]);
  }

  /**
   * Running `process_course_data` twice on one graph leaves the graph of a
   * single run, and the second run stops at the same row as the first.
   */
  method RerunCourseData(g: Graph, instances: seq<InstanceRow>, plannings: seq<PlanningRow>)
    returns (first: Option<nat>, second: Option<nat>)
    modifies g
    ensures first == second == FirstMalformed(Merge(instances, plannings))
    ensures g.triples == old(g.triples) + CourseDelta(Merge(instances, plannings))
  {
    first := ProcessCourseData(g, instances, plannings);
    ghost var once := g.triples;
    second := ProcessCourseData(g, instances, plannings);
    assert g.triples == once;
  }
}

=== FILE: ontology.dfy ===
/**
 * The IRIs the conversion script writes: `RDF.type`, the classes and
 * properties of the ontology namespace (`ns.Course`, `ns.examinedBy`, ...),
 * and the entity nodes it names as `ns[f"<prefix>_{key}"]`.
 *
 * A resource is kept structurally (which class, which property, which kind
 * of node with which key); `FullIri` spells it out as the IRI string, and
 * `FullIriInjective` shows that two resources are equal exactly when their
 * IRIs are, so nodes are merged exactly when kind and key coincide.
 */
module Ontology {
  import opened Wrappers
  import opened PyText

  const RdfTypeIri: string := "http://www.w3.org/1999/02/22-rdf-syntax-ns#type"

  /** The ontology namespace `ns`. */
  const Base: string := "http://www.semanticweb.org/anton/ontologies/2025/3/Assignment2/"

  datatype Class =
    | CourseInstance | Course | SeniorTeacher
    | Person | TeachingAssistant | Student | Program

  datatype Property =
    | InstanceId | StudyPeriod | StudyYear | PlanningNumStudents | SeniorHours | AssistantHours
    | CInstanceOf | CourseCode | TeacherId | ExaminedBy
    | PersonId | Name | EnrolledIn | ProgramCode | YearStarted | Graduated

  /** The kinds of entity node, each with its own IRI prefix. */
  datatype NodeKind = InstanceNode | CourseNode | TeacherNode | PersonNode | ProgramNode

  datatype Resource =
    | RdfType
    | ClassIri(cls: Class)
    | PropertyIri(prop: Property)
    | Node(kind: NodeKind, key: string)

  function ClassName(c: Class): string {
    match c
    case CourseInstance => "CourseInstance"
    case Course => "Course"
    case SeniorTeacher => "SeniorTeacher"
    case Person => "Person"
    case TeachingAssistant => "TeachingAssistant"
    case Student => "Student"
    case Program => "Program"
  }

  function PropertyName(p: Property): string {
    match p
    case InstanceId => "instanceId"
    case StudyPeriod => "studyPeriod"
    case StudyYear => "studyYear"
    case PlanningNumStudents => "planningNumStudents"
    case SeniorHours => "seniorHours"
    case AssistantHours => "assistantHours"
    case CInstanceOf => "cInstanceOf"
    case CourseCode => "courseCode"
    case TeacherId => "teacherId"
    case ExaminedBy => "examinedBy"
    case PersonId => "personId"
    case Name => "name"
    case EnrolledIn => "enrolledIn"
    case ProgramCode => "programCode"
    case YearStarted => "yearStarted"
    case Graduated => "graduated"
  }

  function KindPrefix(k: NodeKind): string {
    match k
    case InstanceNode => "courseInstance_"
    case CourseNode => "course_"
    case TeacherNode => "teacher_"
    case PersonNode => "person_"
    case ProgramNode => "program_"
  }

  /** The part of the IRI after the namespace. */
  function LocalName(r: Resource): string
    requires !r.RdfType?
  {
    match r
    case ClassIri(c) => ClassName(c)
    case PropertyIri(p) => PropertyName(p)
    case Node(k, key) => KindPrefix(k) + key
  }

  /** The IRI of a resource, as rdflib writes it. */
  function FullIri(r: Resource): string {
    if r.RdfType? then RdfTypeIri else Base + LocalName(r)
  }

  function ParseClass(s: string): Option<Class> {
    if s == "CourseInstance" then Some(CourseInstance)
    else if s == "Course" then Some(Course)
    else if s == "SeniorTeacher" then Some(SeniorTeacher)
    else if s == "Person" then Some(Person)
    else if s == "TeachingAssistant" then Some(TeachingAssistant)
    else if s == "Student" then Some(Student)
    else if s == "Program" then Some(Program)
    else None
  }

  /** Reads a property name back, looking only at the names that share its first letter. */
  function ParseProperty(s: string): Option<Property> {
    if s == [] then None
    else match s[0]
      case 'a' => if s == "assistantHours" then Some(AssistantHours) else None
      case 'c' =>
        if s == "cInstanceOf" then Some(CInstanceOf)
        else if s == "courseCode" then Some(CourseCode)
        else None
      case 'e' =>
        if s == "examinedBy" then Some(ExaminedBy)
        else if s == "enrolledIn" then Some(EnrolledIn)
        else None
      case 'g' => if s == "graduated" then Some(Graduated) else None
      case 'i' => if s == "instanceId" then Some(InstanceId) else None
      case 'n' => if s == "name" then Some(Name) else None
      case 'p' =>
        if s == "planningNumStudents" then Some(PlanningNumStudents)
        else if s == "personId" then Some(PersonId)
        else if s == "programCode" then Some(ProgramCode)
        else None
      case 's' =>
        if s == "studyPeriod" then Some(StudyPeriod)
        else if s == "studyYear" then Some(StudyYear)
        else if s == "seniorHours" then Some(SeniorHours)
        else None
      case 't' => if s == "teacherId" then Some(TeacherId) else None
      case 'y' => if s == "yearStarted" then Some(YearStarted) else None
      case _ => None
  }

  function ParseNode(s: string): Option<Resource> {
    if StartsWith(s, "courseInstance_") then Some(Node(InstanceNode, s[15..]))
    else if StartsWith(s, "course_") then Some(Node(CourseNode, s[7..]))
    else if StartsWith(s, "teacher_") then Some(Node(TeacherNode, s[8..]))
    else if StartsWith(s, "person_") then Some(Node(PersonNode, s[7..]))
    else if StartsWith(s, "program_") then Some(Node(ProgramNode, s[8..]))
    else None
  }

  /** Reads a local name back: the inverse of `LocalName`. */
  function ParseLocalName(s: string): Option<Resource> {
    if '_' in s then ParseNode(s)
    else match ParseClass(s)
      case Some(c) => Some(ClassIri(c))
      case None =>
        match ParseProperty(s)
        case Some(p) => Some(PropertyIri(p))
        case None => None
  }

  lemma ParseNodeOfLocalName(k: NodeKind, key: string)
    ensures ParseNode(KindPrefix(k) + key) == Some(Node(k, key))
  {
    var s := KindPrefix(k) + key;
    StartsWithConcat(KindPrefix(k), key);
    match k
    case InstanceNode =>
    case CourseNode => assert s[6] == '_';
    case TeacherNode => assert s[0] == 't';
    case PersonNode => assert s[0] == 'p' && s[1] == 'e';
    case ProgramNode => assert s[0] == 'p' && s[1] == 'r';
  }

  lemma ParseClassName(c: Class)
    ensures '_' !in ClassName(c)
    ensures ParseClass(ClassName(c)) == Some(c)
  {
    match c
    case CourseInstance =>
    case Course =>
    case SeniorTeacher =>
    case Person =>
    case TeachingAssistant =>
    case Student =>
    case Program =>
  }

  lemma PropertyNameShape(p: Property)
    ensures '_' !in PropertyName(p)
  {
    match p
    case InstanceId =>
    case StudyPeriod =>
    case StudyYear =>
    case PlanningNumStudents =>
    case SeniorHours =>
    case AssistantHours =>
    case CInstanceOf =>
    case CourseCode =>
    case TeacherId =>
    case ExaminedBy =>
    case PersonId =>
    case Name =>
    case EnrolledIn =>
    case ProgramCode =>
    case YearStarted =>
    case Graduated =>
  }

  /** Property names begin in lower case and class names in upper case, so no property name reads as a class. */
  lemma PropertyNameNotClass(p: Property)
    ensures ParseClass(PropertyName(p)) == None
  {
    var s := PropertyName(p);
    assert 'a' <= s[0] <= 'z' by {
      match p
      case InstanceId =>
      case StudyPeriod =>
      case StudyYear =>
      case PlanningNumStudents =>
      case SeniorHours =>
      case AssistantHours =>
      case CInstanceOf =>
      case CourseCode =>
      case TeacherId =>
      case ExaminedBy =>
      case PersonId =>
      case Name =>
      case EnrolledIn =>
      case ProgramCode =>
      case YearStarted =>
      case Graduated =>
    }
  }

  lemma ParsePropertyName(p: Property)
    ensures ParseProperty(PropertyName(p)) == Some(p)
  {
    match p
    case InstanceId =>
    case StudyPeriod =>
    case StudyYear =>
    case PlanningNumStudents =>
    case SeniorHours =>
    case AssistantHours =>
    case CInstanceOf =>
    case CourseCode =>
    case TeacherId =>
    case ExaminedBy =>
    case PersonId =>
    case Name =>
    case EnrolledIn =>
    case ProgramCode =>
    case YearStarted =>
    case Graduated =>
  }

  /** The local name of every resource in the namespace reads back as that resource. */
  lemma ParseLocalNameInverse(r: Resource)
    requires !r.RdfType?
    ensures ParseLocalName(LocalName(r)) == Some(r)
  {
    match r
    case ClassIri(c) => ParseClassName(c);
    case PropertyIri(p) => PropertyNameShape(p); PropertyNameNotClass(p); ParsePropertyName(p);
    case Node(k, key) =>
      assert LocalName(r)[|KindPrefix(k)| - 1] == '_';
      ParseNodeOfLocalName(k, key);
  }

  /**
   * Distinct resources have distinct IRIs: no class or property IRI equals a
   * node IRI, and two nodes share an IRI only when they have the same kind
   * and the same key.
   */
  lemma FullIriInjective(a: Resource, b: Resource)
    ensures FullIri(a) == FullIri(b) <==> a == b
  {
    if FullIri(a) == FullIri(b) && !a.RdfType? && !b.RdfType? {
      assert LocalName(a) == FullIri(a)[|Base|..];
      assert LocalName(b) == FullIri(b)[|Base|..];
      ParseLocalNameInverse(a);
      ParseLocalNameInverse(b);
    }
  }
}

=== FILE: pytext.dfy ===
/**
 * The few Python `str` operations the conversion script relies on:
 * `s.split(sep)[0]`, `s.startswith(prefix)`, and `int(s)` for a base-10 string.
 * Strings are sequences of code points, as in Python 3.
 */
module PyText {
  import opened Wrappers

  /**
   * The characters `int()` skips around a number: the ASCII white space
   * `\t\n\v\f\r` and space, and the non-ASCII code points `str.isspace()`
   * accepts. The separators U+001C..U+001F, white space to `str.isspace()`,
   * are not skipped: `int()` leaves ASCII characters as they are and then
   * skips only ASCII white space.
   */
  predicate IsSpace(c: char) {
    || ('\t' <= c <= '\r')              // tab, line feed, vertical tab, form feed, carriage return
    || c == ' '
    || c == '\U{85}' || c == '\U{A0}' || c == '\U{1680}'
    || ('\U{2000}' <= c <= '\U{200A}')
    || c == '\U{2028}' || c == '\U{2029}' || c == '\U{202F}' || c == '\U{205F}' || c == '\U{3000}'
  }

  predicate IsDigit(c: char) {
    '0' <= c <= '9'
  }

  function DigitValue(c: char): (d: nat)
    requires IsDigit(c)
    ensures d < 10
  {
    (c - '0') as nat
  }

  function DigitChar(d: nat): (c: char)
    requires d < 10
    ensures IsDigit(c) && DigitValue(c) == d
  {
    ('0' as int + d) as char
  }

  /** `s.split(sep)[0]`: the text before the first `sep`, or all of `s` when `sep` does not occur. */
  function SplitHead(s: string, sep: char): string {
    if s == [] || s[0] == sep then [] else [s[0]] + SplitHead(s[1..], sep)
  }

  /**
   * The head is the longest prefix of `s` free of `sep`: it is a prefix, it
   * holds no `sep`, and it stops only at a `sep` or at the end of `s`.
   */
  lemma {:induction false} SplitHeadSpec(s: string, sep: char)
    ensures var head := SplitHead(s, sep);
      && head <= s
      && sep !in head
      && (|head| < |s| ==> s[|head|] == sep)
  {
    if s != [] && s[0] != sep {
      SplitHeadSpec(s[1..], sep);
    }
  }

  /** `s.startswith(prefix)`. */
  predicate StartsWith(s: string, prefix: string)
    ensures StartsWith(s, prefix) ==> |prefix| <= |s| && s == prefix + s[|prefix|..]
  {
    |prefix| <= |s| && s[..|prefix|] == prefix
  }

  lemma StartsWithConcat(prefix: string, rest: string)
    ensures StartsWith(prefix + rest, prefix)
  {
    assert (prefix + rest)[..|prefix|] == prefix;
  }

  /** Drops the leading white space, as `int()` does before the number. */
  function StripStart(s: string): string {
    if s != [] && IsSpace(s[0]) then StripStart(s[1..]) else s
  }

  /** Drops the trailing white space, as `int()` does after the number. */
  function StripEnd(s: string): string {
    if s != [] && IsSpace(s[|s| - 1]) then StripEnd(s[..|s| - 1]) else s
  }

  /** Stripping the start keeps a suffix, drops only white space, and leaves no white space in front. */
  lemma {:induction false} StripStartSpec(s: string)
    ensures var r := StripStart(s);
      && |r| <= |s| && r == s[|s| - |r|..]
      && (forall i :: 0 <= i < |s| - |r| ==> IsSpace(s[i]))
      && (r == [] || !IsSpace(r[0]))
  {
    if s != [] && IsSpace(s[0]) {
      var r := StripStart(s);
      StripStartSpec(s[1..]);
      assert r == StripStart(s[1..]);
      forall i | 1 <= i < |s| - |r|
        ensures IsSpace(s[i])
      {
        assert s[1..][i - 1] == s[i];
      }
      assert s[1..][|s[1..]| - |r|..] == s[|s| - |r|..];
    }
  }

  /** Stripping the end keeps a prefix, drops only white space, and leaves no white space at the end. */
  lemma {:induction false} StripEndSpec(s: string)
    ensures var r := StripEnd(s);
      && r <= s
      && (forall i :: |r| <= i < |s| ==> IsSpace(s[i]))
      && (r == [] || !IsSpace(r[|r| - 1]))
  {
    if s != [] && IsSpace(s[|s| - 1]) {
      StripEndSpec(s[..|s| - 1]);
    }
  }

  /** The text `int()` parses once the surrounding white space is skipped. */
  function Strip(s: string): string {
    StripEnd(StripStart(s))
  }

  /**
   * The digit part of `int()`: one or more digits, where a single `_` may
   * stand between two digits. Its base-10 value, or `None` when malformed.
   */
  function ParseDigits(b: string): (r: Option<nat>)
    ensures r.Some? ==> |b| > 0 && IsDigit(b[|b| - 1])
  {
    if b == [] || !IsDigit(b[|b| - 1]) then None
    else if |b| == 1 then Some(DigitValue(b[0]))
    else
      var init := if b[|b| - 2] == '_' then b[..|b| - 2] else b[..|b| - 1];
      match ParseDigits(init)
      case None => None
      case Some(v) => Some(v * 10 + DigitValue(b[|b| - 1]))
  }

  /**
   * The digit texts `int()` accepts: a digit first, then digits and `_`,
   * every `_` followed by a digit. Leading zeros are allowed.
   */
  predicate WellFormedDigits(b: string) {
    && |b| > 0 && IsDigit(b[0])
    && (forall i :: 0 <= i < |b| ==> IsDigit(b[i]) || b[i] == '_')
    && (forall i :: 0 <= i < |b| && b[i] == '_' ==> i + 1 < |b| && IsDigit(b[i + 1]))
  }

  /** The text with every `_` removed. */
  function WithoutUnderscores(b: string): (d: string)
    ensures |d| <= |b|
    ensures (forall i :: 0 <= i < |b| ==> IsDigit(b[i]) || b[i] == '_') ==>
      forall i :: 0 <= i < |d| ==> IsDigit(d[i])
  {
    if b == [] then []
    else WithoutUnderscores(b[..|b| - 1]) + (if b[|b| - 1] == '_' then [] else [b[|b| - 1]])
  }

  /** The base-10 value of a string of digits, most significant first. */
  function DigitsValue(d: string): nat
    requires forall i :: 0 <= i < |d| ==> IsDigit(d[i])
  {
    if d == [] then 0 else DigitsValue(d[..|d| - 1]) * 10 + DigitValue(d[|d| - 1])
  }

  /** Dropping a trailing digit keeps a text well formed exactly when its own last character is a digit. */
  lemma WellFormedDropDigit(b: string)
    requires |b| >= 2 && IsDigit(b[|b| - 1]) && b[|b| - 2] != '_'
    ensures WellFormedDigits(b) <==> WellFormedDigits(b[..|b| - 1])
  {
    var init := b[..|b| - 1];
    if WellFormedDigits(init) {
      forall i | 0 <= i < |b| && b[i] == '_'
        ensures i + 1 < |b| && IsDigit(b[i + 1])
      {
        assert init[i] == '_';
      }
    }
  }

  /** Dropping a trailing `_` and digit keeps a text well formed, in both directions. */
  lemma WellFormedDropSeparator(b: string)
    requires |b| >= 2 && IsDigit(b[|b| - 1]) && b[|b| - 2] == '_'
    ensures WellFormedDigits(b) <==> WellFormedDigits(b[..|b| - 2])
  {
    var init := b[..|b| - 2];
    if WellFormedDigits(b) && |init| > 0 {
      forall i | 0 <= i < |init| && init[i] == '_'
        ensures i + 1 < |init| && IsDigit(init[i + 1])
      {
        assert b[i] == '_';
      }
    }
    if WellFormedDigits(init) {
      forall i | 0 <= i < |b| && b[i] == '_'
        ensures i + 1 < |b| && IsDigit(b[i + 1])
      {
        if i < |init| {
          assert init[i] == '_';
        }
      }
    }
  }

  /**
   * The digit part of `int()` accepts exactly the well-formed digit texts,
   * and its value is the value of their digits with the `_` removed.
   */
  lemma {:induction false} ParseDigitsSpec(b: string)
    ensures ParseDigits(b).Some? <==> WellFormedDigits(b)
    ensures WellFormedDigits(b) ==> ParseDigits(b).value == DigitsValue(WithoutUnderscores(b))
  {
    if b == [] || !IsDigit(b[|b| - 1]) {
    } else if |b| == 1 {
      assert WithoutUnderscores(b) == [b[0]];
    } else {
      var last := b[|b| - 1];
      var init := if b[|b| - 2] == '_' then b[..|b| - 2] else b[..|b| - 1];
      ParseDigitsSpec(init);
      if b[|b| - 2] == '_' {
        WellFormedDropSeparator(b);
        assert b[..|b| - 1][..|b| - 2] == init;
      } else {
        WellFormedDropDigit(b);
      }
      assert WithoutUnderscores(b) == WithoutUnderscores(init) + [last];
    }
  }

  /**
   * `int(s)` for a `str` argument in base 10: surrounding white space is
   * ignored, one optional sign is allowed, and anything else raises
   * `ValueError`, modelled as `None`.
   */
  function ParseInt(s: string): Option<int> {
    var t := Strip(s);
    if |t| > 0 && (t[0] == '+' || t[0] == '-') then
      match ParseDigits(t[1..])
      case None => None
      case Some(v) => var n: int := v; Some(if t[0] == '-' then -n else n)
    else
      match ParseDigits(t)
      case None => None
      case Some(v) => Some(v)
  }

  /**
   * What `int()` accepts: after the surrounding white space, one optional
   * sign and a well-formed digit text, whose value it gives, negated after `-`.
   */
  lemma ParseIntSpec(s: string)
    ensures var t := Strip(s);
      var signed := |t| > 0 && (t[0] == '+' || t[0] == '-');
      var d := if signed then t[1..] else t;
      && (ParseInt(s).Some? <==> WellFormedDigits(d))
      && (WellFormedDigits(d) ==>
            ParseInt(s).value == (if signed && t[0] == '-' then -(DigitsValue(WithoutUnderscores(d)) as int)
                                  else DigitsValue(WithoutUnderscores(d))))
  {
    var t := Strip(s);
    if |t| > 0 && (t[0] == '+' || t[0] == '-') {
      ParseDigitsSpec(t[1..]);
    } else {
      ParseDigitsSpec(t);
    }
  }

  /**
   * Spellings `int()` reads beyond the shortest one: `int("1_2_3") == 123`,
   * `int("02022") == 2022`; while `"1__2"`, `"_1"` and `"1_"` raise.
   */
  lemma ParseIntSpellings()
    ensures ParseDigits("1_2_3") == Some(123)
    ensures ParseInt("02022") == Some(2022)
    ensures ParseDigits("1__2") == None
    ensures ParseDigits("_1") == None
    ensures ParseDigits("1_") == None
  {
    assert "1_2_3"[..3] == "1_2" && "1_2"[..1] == "1";
    assert "02022"[..4] == "0202" && "0202"[..3] == "020" && "020"[..2] == "02" && "02"[..1] == "0";
    assert StripStart("02022") == "02022";
    assert StripEnd("02022") == "02022";
    ParseDigitsSpec("1__2");
    assert "1__2"[1] == '_' && "1__2"[2] == '_';
    ParseDigitsSpec("_1");
    ParseDigitsSpec("1_");
  }

  /** `str(n)` for a natural number: its shortest decimal spelling. */
  function DecimalText(n: nat): (t: string)
    ensures |t| > 0
    ensures forall i :: 0 <= i < |t| ==> IsDigit(t[i])
    ensures t[0] == '0' ==> n == 0
  {
    if n < 10 then [DigitChar(n)] else DecimalText(n / 10) + [DigitChar(n % 10)]
  }

  /** The digits of `str(n)` read back as `n`. */
  lemma {:induction false} ParseDigitsDecimalText(n: nat)
    ensures ParseDigits(DecimalText(n)) == Some(n)
  {
    var t := DecimalText(n);
    if n >= 10 {
      ParseDigitsDecimalText(n / 10);
      assert t[..|t| - 1] == DecimalText(n / 10);
    }
  }

  /** `int(str(n)) == n`: reading back the decimal spelling of a number gives the number. */
  lemma ParseIntDecimalText(n: nat)
    ensures ParseInt(DecimalText(n)) == Some(n)
  {
    var t := DecimalText(n);
    assert StripStart(t) == t;
    assert StripEnd(t) == t;
    ParseDigitsDecimalText(n);
  }

  /** `int()` of a string without a single digit always fails: `int("")`, `int("  ")`, `int("+")`. */
  lemma ParseIntNeedsDigit(s: string)
    requires forall i :: 0 <= i < |s| ==> !IsDigit(s[i])
    ensures ParseInt(s) == None
  {
    var u := StripStart(s);
    var t := Strip(s);
    StripStartSpec(s);
    StripEndSpec(u);
    if |t| > 0 && (t[0] == '+' || t[0] == '-') {
      assert |t| > 1 ==> t[1] == u[1] == s[|s| - |u| + 1];
    } else {
      assert |t| > 0 ==> t[0] == u[0] == s[|s| - |u|];
    }
  }

  /** A sign in front of the digits gives the signed number: `int("-42") == -42`, `int("+42") == 42`. */
  lemma ParseIntSigned(n: nat)
    ensures ParseInt("-" + DecimalText(n)) == Some(-(n as int))
    ensures ParseInt("+" + DecimalText(n)) == Some(n)
  {
    var t := DecimalText(n);
    ParseDigitsDecimalText(n);
    assert !IsSpace(t[|t| - 1]);
    assert StripStart("-" + t) == "-" + t;
    assert StripEnd("-" + t) == "-" + t;
    assert ("-" + t)[1..] == t;
    assert StripStart("+" + t) == "+" + t;
    assert StripEnd("+" + t) == "+" + t;
    assert ("+" + t)[1..] == t;
  }

  /**
   * `int()` skips ASCII white space around the number but not the
   * separator U+001C: `int(" 7\n") == 7`, while `int("\x1c7")` raises.
   */
  lemma ParseIntWhiteSpace()
    ensures ParseInt(" 7\n") == Some(7)
    ensures ParseInt("\U{1C}7") == None
  {
    assert StripStart(" 7\n") == "7\n";
    assert StripEnd("7\n") == "7";
    assert StripStart("\U{1C}7") == "\U{1C}7";
    assert StripEnd("\U{1C}7") == "\U{1C}7";
  }
}

=== FILE: rdf.dfy ===
/**
 * The part of RDF the conversion script uses: IRIs, typed literals, triples,
 * and a graph, which is a set of triples (section 3 of "RDF 1.1 Concepts and
 * Abstract Syntax"). Adding a triple that is already present changes nothing.
 */
module Rdf {
  import opened Ontology

  /** A literal with its XSD datatype: xsd:string, xsd:int or xsd:boolean. */
  datatype Literal = Str(text: string) | Int(number: int) | Bool(flag: bool)

  /** A node or predicate of a triple: a named resource, or a literal. */
  datatype Term = Iri(resource: Resource) | Lit(value: Literal)

  datatype Triple = Triple(s: Term, p: Term, o: Term)

  /** The class assertion `(node, RDF.type, cls)`. */
  function TypeTriple(node: Term, cls: Class): Triple {
    Triple(node, Iri(RdfType), Iri(ClassIri(cls)))
  }

  /** An in-memory graph that grows by `Add`. */
  class Graph {
    var triples: set<Triple>

    /** A graph holding `initial`, a set of triples over the script's own vocabulary. */
    constructor (initial: set<Triple>)
      ensures triples == initial
    {
      triples := initial;
    }

    /** `g.add((s, p, o))`. */
    method Add(t: Triple)
      modifies this
      ensures triples == old(triples) + {t}
    {
      triples := triples + {t};
    }
  }

  /** The nodes that `g` states to be instances of `cls`. */
  function InstancesOf(g: set<Triple>, cls: Class): (nodes: set<Term>)
    ensures forall n :: n in nodes <==> TypeTriple(n, cls) in g
  {
    set t | t in g && t.p == Iri(RdfType) && t.o == Iri(ClassIri(cls)) :: t.s
  }

  /**
   * The triples added by processing `rows` in order, each row adding the
   * triples `emit` gives for it.
   */
  function Accumulate<R>(rows: seq<R>, emit: R -> set<Triple>): set<Triple> {
    if rows == [] then {} else Accumulate(rows[..|rows| - 1], emit) + emit(rows[|rows| - 1])
  }

  /** Adding `a` and then `b` to a graph adds `a + b`. */
  lemma AddInTurn(g: set<Triple>, a: set<Triple>, b: set<Triple>)
    ensures (g + a) + b == g + (a + b)
  {
  }

  /** Processing one more row adds that row's triples. */
  lemma AccumulateStep<R>(rows: seq<R>, i: nat, emit: R -> set<Triple>)
    requires i < |rows|
    ensures Accumulate(rows[..i + 1], emit) == Accumulate(rows[..i], emit) + emit(rows[i])
  {
    assert rows[..i + 1][..i] == rows[..i];
  }

  /** A triple is accumulated exactly when some row emits it. */
  lemma {:induction false} AccumulateMember<R>(rows: seq<R>, emit: R -> set<Triple>, t: Triple)
    ensures t in Accumulate(rows, emit) <==> exists i :: 0 <= i < |rows| && t in emit(rows[i])
  {
    if rows != [] {
      var init := rows[..|rows| - 1];
      AccumulateMember(init, emit, t);
      if t in Accumulate(init, emit) {
        var i :| 0 <= i < |init| && t in emit(init[i]);
        assert rows[i] == init[i];
      }
      if exists i :: 0 <= i < |rows| && t in emit(rows[i]) {
        var i :| 0 <= i < |rows| && t in emit(rows[i]);
        if i < |init| {
          assert init[i] == rows[i];
        }
      }
    }
  }

  /**
   * The accumulated triples depend only on which rows occur: not on their
   * order, nor on how often each one occurs.
   */
  lemma AccumulateSameRows<R>(rows: seq<R>, rows': seq<R>, emit: R -> set<Triple>)
    requires forall r :: r in rows <==> r in rows'
    ensures Accumulate(rows, emit) == Accumulate(rows', emit)
  {
    forall t
      ensures t in Accumulate(rows, emit) <==> t in Accumulate(rows', emit)
    {
      AccumulateMember(rows, emit, t);
      AccumulateMember(rows', emit, t);
      if exists i :: 0 <= i < |rows| && t in emit(rows[i]) {
        var i :| 0 <= i < |rows| && t in emit(rows[i]);
        assert rows[i] in rows';
      }
      if exists i :: 0 <= i < |rows'| && t in emit(rows'[i]) {
        var i :| 0 <= i < |rows'| && t in emit(rows'[i]);
        assert rows'[i] in rows;
      }
    }
  }
}

=== FILE: student_properties.dfy ===
/**
 * What `process_student_data` promises about the graph it builds: every
 * student is a `Person`, typed exactly one of `TeachingAssistant` and
 * `Student` by the name prefix, enrolled in one `Program` node per
 * programme code, with its start year and graduation flag.
 */
module StudentProperties {
  import opened PyText
  import opened Ontology
  import opened Rdf
  import opened Conversion

  /** Every added triple comes from some student row, and every row's triples are added. */
  lemma StudentDeltaMember(students: seq<StudentRow>, t: Triple)
    ensures t in StudentDelta(students) <==>
      exists i :: 0 <= i < |students| && t in StudentRowTriples(students[i])
  {
    AccumulateMember(students, StudentRowTriples, t);
  }

  // ---------------------------------------------------------------- classification

  /** A name is a teaching assistant's exactly when it begins with the three characters `TA `. */
  lemma TeachingAssistantNames(rest: string)
    ensures IsTeachingAssistant("TA " + rest)
    ensures !IsTeachingAssistant("ta " + rest)
    ensures !IsTeachingAssistant("TA")
    ensures !IsTeachingAssistant("TAnya " + rest)
  {
    StartsWithConcat("TA ", rest);
    assert ("ta " + rest)[0] == 't';
    assert ("TAnya " + rest)[2] == 'n';
  }

  /** `startswith('TA ')` holds exactly for the names that are `TA ` followed by anything. */
  lemma TeachingAssistantPrefix(name: string)
    ensures IsTeachingAssistant(name) <==> exists rest :: name == "TA " + rest
  {
    if IsTeachingAssistant(name) {
      assert name == "TA " + name[3..];
    }
    if exists rest :: name == "TA " + rest {
      var rest :| name == "TA " + rest;
      StartsWithConcat("TA ", rest);
    }
  }

  /** Each student row types its person node `Person` and exactly one of `TeachingAssistant` and `Student`. */
  lemma RowClassification(r: StudentRow)
    ensures TypeTriple(NodeTerm(PersonNode, r.studentId), Person) in StudentRowTriples(r)
    ensures TypeTriple(NodeTerm(PersonNode, r.studentId), TeachingAssistant) in StudentRowTriples(r) <==>
      IsTeachingAssistant(r.name)
    ensures TypeTriple(NodeTerm(PersonNode, r.studentId), Student) in StudentRowTriples(r) <==>
      !IsTeachingAssistant(r.name)
  {
  }

  /**
   * The types a row asserts: only its own person node and its own programme
   * node are typed, only with the four student classes, and the person gets
   * only the role its name says.
   */
  lemma RowRoles(r: StudentRow, n: Term)
    ensures TypeTriple(n, Person) in StudentRowTriples(r) <==> n == NodeTerm(PersonNode, r.studentId)
    ensures TypeTriple(n, TeachingAssistant) in StudentRowTriples(r) <==>
      n == NodeTerm(PersonNode, r.studentId) && IsTeachingAssistant(r.name)
    ensures TypeTriple(n, Student) in StudentRowTriples(r) <==>
      n == NodeTerm(PersonNode, r.studentId) && !IsTeachingAssistant(r.name)
    ensures TypeTriple(n, Program) in StudentRowTriples(r) <==> n == NodeTerm(ProgramNode, r.programme)
    ensures forall t :: t in StudentRowTriples(r) && t.p == Iri(RdfType) ==>
      t.s == NodeTerm(PersonNode, r.studentId) || t.s == NodeTerm(ProgramNode, r.programme)
    ensures forall t :: t in StudentRowTriples(r) && t.p == Iri(RdfType) ==>
      t.o in {Iri(ClassIri(Person)), Iri(ClassIri(TeachingAssistant)), Iri(ClassIri(Student)), Iri(ClassIri(Program))}
  {
  }

  /** A person node is typed `TeachingAssistant` exactly when some row with that id has a `TA ` name. */
  lemma TeachingAssistantTyped(students: seq<StudentRow>, id: string)
    ensures TypeTriple(NodeTerm(PersonNode, id), TeachingAssistant) in StudentDelta(students) <==>
      exists i :: 0 <= i < |students| && students[i].studentId == id && IsTeachingAssistant(students[i].name)
  {
    StudentDeltaMember(students, TypeTriple(NodeTerm(PersonNode, id), TeachingAssistant));
    StudentDeltaMember(students, TypeTriple(NodeTerm(PersonNode, id), Student));
    forall i | 0 <= i < |students| {
      RowRoles(students[i], NodeTerm(PersonNode, id));
    }
  }

  /** A person node is typed `Student` exactly when some row with that id has a name without the prefix. */
  lemma StudentTyped(students: seq<StudentRow>, id: string)
    ensures TypeTriple(NodeTerm(PersonNode, id), Student) in StudentDelta(students) <==>
      exists i :: 0 <= i < |students| && students[i].studentId == id && !IsTeachingAssistant(students[i].name)
  {
    StudentDeltaMember(students, TypeTriple(NodeTerm(PersonNode, id), TeachingAssistant));
    StudentDeltaMember(students, TypeTriple(NodeTerm(PersonNode, id), Student));
    forall i | 0 <= i < |students| {
      RowRoles(students[i], NodeTerm(PersonNode, id));
    }
  }

  /**
   * The two roles are exclusive for a person unless the table itself
   * conflicts: a node typed both `TeachingAssistant` and `Student` needs two
   * rows with its id, one with a `TA ` name and one without.
   */
  lemma BothRolesNeedConflictingRows(students: seq<StudentRow>, id: string)
    requires TypeTriple(NodeTerm(PersonNode, id), TeachingAssistant) in StudentDelta(students)
    requires TypeTriple(NodeTerm(PersonNode, id), Student) in StudentDelta(students)
    ensures exists i, j :: (0 <= i < |students| && 0 <= j < |students| &&
      students[i].studentId == id && students[j].studentId == id &&
      students[i].name != students[j].name)
  {
    TeachingAssistantTyped(students, id);
    StudentTyped(students, id);
    var i :| 0 <= i < |students| && students[i].studentId == id && IsTeachingAssistant(students[i].name);
    var j :| 0 <= j < |students| && students[j].studentId == id && !IsTeachingAssistant(students[j].name);
  }

  /** When all rows with an id agree on the name, the person gets exactly one role. */
  lemma ConsistentRowsGiveOneRole(students: seq<StudentRow>, id: string)
    requires forall i, j :: (0 <= i < |students| && 0 <= j < |students| &&
      students[i].studentId == id && students[j].studentId == id) ==> students[i].name == students[j].name
    requires exists i :: 0 <= i < |students| && students[i].studentId == id
    ensures (TypeTriple(NodeTerm(PersonNode, id), TeachingAssistant) in StudentDelta(students)) !=
            (TypeTriple(NodeTerm(PersonNode, id), Student) in StudentDelta(students))
  {
    TeachingAssistantTyped(students, id);
    StudentTyped(students, id);
  }

  // ---------------------------------------------------------------- per-row triples

  /**
   * Every student row leaves its person node with id, name, start year and
   * graduation flag, enrolled in the node of its programme, which is typed
   * `Program` and carries the programme code.
   */
  lemma StudentRowPresent(students: seq<StudentRow>, i: nat)
    requires i < |students|
    ensures var r := students[i];
      var person := NodeTerm(PersonNode, r.studentId);
      var program := NodeTerm(ProgramNode, r.programme);
      && TypeTriple(person, Person) in StudentDelta(students)
      && Triple(person, Prop(PersonId), Lit(Str(r.studentId))) in StudentDelta(students)
      && Triple(person, Prop(Name), Lit(Str(r.name))) in StudentDelta(students)
      && TypeTriple(program, Program) in StudentDelta(students)
      && Triple(program, Prop(ProgramCode), Lit(Str(r.programme))) in StudentDelta(students)
      && Triple(person, Prop(EnrolledIn), program) in StudentDelta(students)
      && Triple(person, Prop(YearStarted), Lit(Int(r.year))) in StudentDelta(students)
      && Triple(person, Prop(Graduated), Lit(Bool(GraduatedAsWritten(r.graduated)))) in StudentDelta(students)
  {
    forall t | t in StudentRowTriples(students[i])
      ensures t in StudentDelta(students)
    {
      StudentDeltaMember(students, t);
    }
  }

  // ---------------------------------------------------------------- entity merging

  /** The `Person` nodes are the nodes of the student ids: rows sharing an id share the node. */
  lemma PersonNodesAreKeyed(students: seq<StudentRow>)
    ensures InstancesOf(StudentDelta(students), Person) ==
      set r | r in students :: NodeTerm(PersonNode, r.studentId)
  {
    var nodes := set r | r in students :: NodeTerm(PersonNode, r.studentId);
    forall n
      ensures n in InstancesOf(StudentDelta(students), Person) <==> n in nodes
    {
      StudentDeltaMember(students, TypeTriple(n, Person));
      StudentDeltaMember(students, TypeTriple(n, Program));
      forall i | 0 <= i < |students| {
        RowRoles(students[i], n);
      }
      if n in nodes {
        var r :| r in students && n == NodeTerm(PersonNode, r.studentId);
        var i :| 0 <= i < |students| && students[i] == r;
      }
    }
  }

  /** The `Program` nodes are the nodes of the programme codes: rows sharing a code share the node. */
  lemma ProgramNodesAreKeyed(students: seq<StudentRow>)
    ensures InstancesOf(StudentDelta(students), Program) ==
      set r | r in students :: NodeTerm(ProgramNode, r.programme)
  {
    var nodes := set r | r in students :: NodeTerm(ProgramNode, r.programme);
    forall n
      ensures n in InstancesOf(StudentDelta(students), Program) <==> n in nodes
    {
      StudentDeltaMember(students, TypeTriple(n, Person));
      StudentDeltaMember(students, TypeTriple(n, Program));
      forall i | 0 <= i < |students| {
        RowRoles(students[i], n);
      }
      if n in nodes {
        var r :| r in students && n == NodeTerm(ProgramNode, r.programme);
        var i :| 0 <= i < |students| && students[i] == r;
      }
    }
  }

  /** One `Person` node per distinct student id. */
  lemma OnePersonPerId(students: seq<StudentRow>)
    ensures |InstancesOf(StudentDelta(students), Person)| == |set r | r in students :: r.studentId|
  {
    var ids := set r | r in students :: r.studentId;
    PersonNodesAreKeyed(students);
    assert (set r | r in students :: NodeTerm(PersonNode, r.studentId)) ==
      (set k | k in ids :: NodeTerm(PersonNode, k));
    KeyedNodeCount(PersonNode, ids);
  }

  /** One `Program` node per distinct programme code. */
  lemma OneProgramPerCode(students: seq<StudentRow>)
    ensures |InstancesOf(StudentDelta(students), Program)| == |set r | r in students :: r.programme|
  {
    var codes := set r | r in students :: r.programme;
    ProgramNodesAreKeyed(students);
    assert (set r | r in students :: NodeTerm(ProgramNode, r.programme)) ==
      (set k | k in codes :: NodeTerm(ProgramNode, k));
    KeyedNodeCount(ProgramNode, codes);
  }

  // ---------------------------------------------------------------- order, repetition, re-runs

  /** The added triples depend only on which rows the table holds: reordering or repeating rows changes nothing. */
  lemma StudentDeltaSameRows(students: seq<StudentRow>, students': seq<StudentRow>)
    requires forall r :: r in students <==> r in students'
    ensures StudentDelta(students) == StudentDelta(students')
  {
    AccumulateSameRows(students, students', StudentRowTriples);
  }

  /** Running `process_student_data` twice on one graph leaves the graph of a single run. */
  method RerunStudentData(g: Graph, students: seq<StudentRow>)
    modifies g
    ensures g.triples == old(g.triples) + StudentDelta(students)
  {
    ProcessStudentData(g, students);
    ghost var once := g.triples;
    ProcessStudentData(g, students);
    assert g.triples == once;
  }

  // ---------------------------------------------------------------- the Graduated column

  /**
   * As written, `row['Graduated'] == 'True'` is false for every row of a
   * column pandas reads as booleans, whereas the corrected reading follows
   * the spelling of each cell.
   */
  lemma BooleanColumnReading(texts: seq<string>)
    requires forall i :: 0 <= i < |texts| ==> texts[i] in TrueWords || texts[i] in FalseWords
    ensures forall i :: 0 <= i < |texts| ==> !GraduatedAsWritten(ReadColumn(texts)[i])
    ensures forall i :: 0 <= i < |texts| ==> GraduatedFlag(ReadColumn(texts)[i]) == (texts[i] in TrueWords)
  {
    assert forall t :: t in texts ==> t in TrueWords || t in FalseWords;
  }

  /**
   * The `graduated` literal of a row is `true` exactly when its cell is the
   * text `True`, and the row adds no other `graduated` literal.
   */
  lemma GraduatedLiteral(r: StudentRow, b: bool)
    ensures Triple(NodeTerm(PersonNode, r.studentId), Prop(Graduated), Lit(Bool(b))) in StudentRowTriples(r) <==>
      b == (r.graduated == Text("True"))
  {
  }

  /**
   * When pandas reads the `Graduated` column as booleans, the mapping
   * records every student as not graduated.
   */
  lemma BooleanColumnGraduatesNobody(students: seq<StudentRow>, t: Triple)
    requires forall i :: 0 <= i < |students| ==> students[i].graduated.Flag?
    requires t in StudentDelta(students) && t.p == Prop(Graduated)
    ensures t.o == Lit(Bool(false))
  {
    StudentDeltaMember(students, t);
    var i :| 0 <= i < |students| && t in StudentRowTriples(students[i]);
  }

  /** The column `["True", "False"]` is read as booleans, and as written its first student is not graduated. */
  lemma GraduatedAsWrittenMissesTrue()
    ensures ReadColumn(["True", "False"]) == [Flag(true), Flag(false)]
    ensures !GraduatedAsWritten(ReadColumn(["True", "False"])[0])
    ensures GraduatedFlag(ReadColumn(["True", "False"])[0])
  {
    BooleanColumnReading(["True", "False"]);
  }

  /** On a column pandas keeps as text, the corrected reading agrees with the comparison as written. */
  lemma GraduatedAgreesOnText(texts: seq<string>, i: nat)
    requires i < |texts|
    requires ReadColumn(texts)[i].Text?
    ensures GraduatedFlag(ReadColumn(texts)[i]) == GraduatedAsWritten(ReadColumn(texts)[i])
    ensures GraduatedFlag(ReadColumn(texts)[i]) <==> texts[i] == "True"
  {
  }
}

=== FILE: wrappers.dfy ===
/** The optional value used for operations that Python lets fail with an exception. */
module Wrappers {
  datatype Option<+T> = None | Some(value: T)
}
